=== FILE: README.md ===
# serverless-serve: API Gateway emulation core, in Dafny

serverless-serve is a Serverless (v0.5) plugin that exposes a project's Node.js
lambdas as local HTTP routes on an Express app, emulating API Gateway. Around
the Express and Serverless plumbing in `index.js` sit a few small,
deterministic decision procedures. This project models them as pure Dafny
functions and methods and proves what they guarantee:

- **Prefix normalisation** (`Paths.NormalizePrefix`): a falsy prefix becomes
  `""`, a non-empty one ends in exactly the `/` it had or one appended.
- **Path translation** (`Paths.Translate`): `prefix + endpoint.path` gets a
  leading `/`, goes through the trailing-slash loop *as written*, is split
  on `/`, has each `{name}` segment rewritten to `:name`, and is joined
  again. `Strings.Split`/`Strings.Join` model JavaScript's `split('/')` and
  `join('/')` and are proved inverse to each other.
- **Route table** (`Routes.RouteTable`, `Routes.Handlers`): every endpoint of
  every `nodejs` function is registered under its lower-cased method.
- **Event building** (`Events.BuildEvent`): body, path parameters and query
  parameters are copied in that order into one event, so the query wins
  over the path, and the path over the body. A source with an own key
  `hasOwnProperty` makes the `src.hasOwnProperty(prop)` guard throw; the
  result promise then rejects and the route answers a bare 500
  (`Routes.HandleRoute`).
- **Response selection** (`Responses.FindResponse`): the loop of
  `findResponse` is proved to pick the earliest rule, in `Object.keys`
  order, that is not `default`, has a non-empty `selectionPattern` and
  matches; otherwise the `default` rule (`Responses.SelectRule`).
- **Outcome mapping** (`Responses.Respond`): a `success` result replies with
  the handler's `response` and the status of `findResponse('')`; any other
  status, or a rejection, replies with `{errorMessage: err}` and the status
  of `findResponse(err.toString())`.
- **Front door** (`Routes.Serve`): `GET /__quit` is routed before the CORS
  middleware and so carries no CORS header; every other request carries
  `Access-Control-Allow-Origin: *` and the allow-methods/allow-headers
  pair; `OPTIONS` (exact, case-sensitive) ends with a bare 200; everything
  else goes on to the endpoint routes, whose reply is written with
  Express 4's `res.send` (`Routes.Send`).

Calls into code the model cannot see are parameters: the regular-expression
test `str.match(pattern)` is a `Matcher`, `err.toString()` is a `Render`,
and `fun.run` is a function from the event to its `RunResult`. The rule set
is a sequence of `(name, rule)` pairs given in JavaScript `Object.keys`
order (integer-like names such as `"404"` first, ascending, then the others
in insertion order); producing that order is the caller's business.

Behaviour worth noting:

- A success does not necessarily select `default`: the code calls
  `findResponse('')`, so the earliest non-default rule whose pattern matches
  the empty string wins (`Responses.SuccessReply`).
- The trailing-slash loop does not strip slashes: a candidate longer than
  one character that ends in `/` becomes the root route `/` (see Findings).
- Only a missing leading slash is added: `//users` stays `//users`
  (`Paths.TranslatePlain`).
- The handler map is filled when the routes are registered, from the
  project's functions (`Routes.Handlers`).
- `res.send` of a lone number takes it as the status code and sends that
  code's message. A HEAD request, and any reply whose final status is 1xx,
  204 or 304, is answered without a body (`Routes.Send`).
- A final status outside 100-999, or a missing one (an endpoint with no
  rule for the outcome), makes Node's `writeHead` throw inside the success
  callback at index.js:192-195; the rejection handler beside it does not
  catch that throw, so the request is never answered
  (`Routes.Send`, `Routes.NoRuleUnanswered`).

Modules: `Options` (`Option`), `Json` (values), `Strings` (split, join, ASCII
lower-casing), `Paths`, `Events`, `Responses`, `Routes`.

## Model

| member | source | states |
|---|---|---|
| Paths.NormalizePrefix | index.js:59-65 | the result is empty exactly when the prefix is falsy, otherwise it ends in '/', extends the given prefix by at most one character, and is the prefix itself when that already ends in '/' |
| Paths.NormalizePrefixIdempotent | index.js:59-65 | normalising a normalised prefix changes nothing |
| Paths.LeadingSlash | index.js:115-117 | the candidate starts with '/', is unchanged if it already did and otherwise gets exactly one '/' in front (also for the empty candidate) |
| Paths.TrimTrailing | index.js:119-122 | the trailing-slash loop as written returns the candidate or "/", and its result is at most one character long or does not end in '/' |
| Paths.TrimTrailingCollapses | index.js:120-122 | any candidate longer than one character that ends in '/' becomes exactly "/" |
| Paths.TrimTrailingKeeps | index.js:120-122 | a candidate of at most one character or not ending in '/' is left unchanged |
| Paths.MapSegment | index.js:125-132 | a segment wrapped in braces becomes ':' plus its inner text; every other segment, empty or partially braced, is unchanged; no '/' is introduced and emptiness is preserved |
| Paths.TranslateSegments | index.js:124-137 | the registered route has as many '/'-separated segments as the candidate, and each is the candidate's segment mapped |
| Paths.TranslateShape | index.js:113-137 | the registered route starts with '/' and is either "/" or does not end in '/' |
| Paths.TranslateCollapses | index.js:113-137 | when prefix + path (after the leading slash) is longer than one character and ends in '/', the route is "/" |
| Paths.TranslatePlain | index.js:113-137 | when prefix + path with its leading '/' forced has no trailing '/' and no braced segment, that string is the route: the join undoes the split (this covers unprefixed paths such as `users` and keeps `//users` as it is) |
| Paths.TranslateParam | index.js:124-137 | a `{name}` segment of the candidate appears as `:name` at the same position of the route |
| Paths.RouteOfThree | index.js:124-137 | a candidate of three slash-free segments is registered as the three segments, each mapped, joined by '/' |
| Paths.TranslateParamRoute | index.js:113-137 | with no prefix, a path `seg/{name}` whose first segment is plain is registered as `/seg/:name` |
| Paths.TrimTrailingFinding | index.js:119-121 | for any plain segment p, the normalised prefix "p/" with an endpoint mounted at "/" is registered as "/" by the code, while the loop the comment describes registers "/p" |
| Paths.IntendedRootMount | index.js:113-137 | with the corrected loop, the normalised prefix "p/" and an endpoint mounted at "/" are registered as "/p" |
| Paths.TrimTrailingIntended | index.js:119-122 | the corrected loop keeps a prefix of the candidate, drops only '/' characters, never empties a non-empty candidate and leaves no trailing '/' except on the root |
| Paths.TranslateIntendedPlain | index.js:113-137 | with the corrected loop a parameter-free path is registered as prefix + path with its leading '/' forced and its trailing slashes removed, a prefix of that string |
| Strings.SplitPieces | index.js:124 | `split('/')` yields one more piece than there are '/' characters, and no piece contains '/' |
| Strings.JoinSplit | index.js:124-137 | `split('/')` followed by `join('/')` gives back the string |
| Strings.SplitJoin | index.js:124-137 | `join('/')` of slash-free pieces followed by `split('/')` gives back the pieces |
| Strings.ToLowerAscii | index.js:137 | lower-casing keeps the length and maps exactly the letters A-Z to a-z |
| Routes.Register | index.js:111-137 | an endpoint is registered with a pattern starting with '/', for that endpoint and the function that declares it |
| Routes.RegisterVerb | index.js:137 | the verb has the method's length, no upper-case letter, and each character is the method's or that letter lowered |
| Routes.OwnRoutes | index.js:105-111 | a nodejs function registers one route per endpoint, in order; a function of any other runtime registers none |
| Routes.RouteTableComplete | index.js:105-137 | every endpoint of every nodejs function has its registration in the route table |
| Routes.RouteTableSound | index.js:105-137 | every route in the table is the registration of an endpoint of some nodejs function |
| Routes.Handlers | index.js:103-109 | the handler map has exactly the names of the nodejs functions, each mapped to a nodejs function of that name taken from the list |
| Routes.HandlersLastWins | index.js:103-109 | a nodejs function not followed by another of the same name is the one its name maps to: the last declaration wins |
| Events.CopyOwnProperties | index.js:145-149 | one copy loop throws exactly when the source shadows `hasOwnProperty`; otherwise the result has the union of keys, the source's values on its keys and the event's elsewhere |
| Events.MergedAgrees | index.js:142-161 | the three copies in order, each keeping the union of keys with the source winning, give the map where each key takes the query's value, else the params', else the body's |
| Events.BuildEvent | index.js:142-161 | the event fails exactly when a source shadows `hasOwnProperty`; otherwise its keys are the union of body, params and query keys and each value is the query's, else the params', else the body's |
| Responses.FirstQualifying | index.js:169-173 | the index found is a qualifying entry with no qualifying entry before it; none is found only when no entry qualifies |
| Responses.Lookup | index.js:174 | `responses['default']` is a rule stored under that name, and is missing exactly when no entry has that name |
| Responses.SelectRule | index.js:167-175 | the selected rule is drawn from the rule set, and is missing exactly when no entry qualifies and none is named "default" |
| Responses.SelectRuleSpec | index.js:167-175 | the selection is the earliest qualifying entry's rule, or the default rule when no entry qualifies |
| Responses.FindResponse | index.js:167-175 | the forEach that keeps the first passing rule, then falls back to `responses['default']`, selects exactly the rule `SelectRule` describes |
| Responses.EarlierRuleWins | index.js:169-172 | of two qualifying entries the later is never the selected one; the selected one is at or before the earlier |
| Responses.DefaultFallback | index.js:174 | with distinct names and no qualifying entry, the selection is the one entry named "default" |
| Responses.Respond | index.js:177-195 | a reply's status, when present, is the status code of some rule of the endpoint |
| Responses.SuccessReply | index.js:177-181 | a success replies with the handler's response; its status is the default rule's when no rule matches the empty string, else the earliest such rule's |
| Responses.FailureReply | index.js:182-195 | a failed status or a rejection replies with `{errorMessage: err}` and the status of the earliest rule matching the rendered error, else of the default rule |
| Responses.SuccessCanMissDefault | index.js:178-181 | an example: a single non-default rule matching every string gives its 500 to a success, ahead of the default's 200 (the general form is the status clause of `Responses.SuccessReply`) |
| Routes.HandleRoute | index.js:140-199 | a request whose body, params or query shadows `hasOwnProperty` is answered a bare 500; any other is answered with the reply for the function's outcome on the merged event |
| Routes.FrontDoor | index.js:67-89 | a request goes to the quit route exactly when it matches GET /__quit, to the preflight answer exactly when it does not and its method is OPTIONS, and to the endpoint routes otherwise |
| Routes.Send | index.js:192-195 | a lone number as payload replaces the status and sends that code's message; any other payload keeps the status and is sent as it is; the request goes unanswered exactly when the final status is missing or outside 100-999; an answered reply has no body exactly when the request is HEAD or the status is 1xx, 204 or 304 |
| Routes.Serve | index.js:67-89 | the quit reply is 200, {ok:true} on GET, without CORS headers; every other answered response has Access-Control-Allow-Origin *; an OPTIONS request gets 200 with no body; no HEAD response has a body; only an endpoint route can leave a request unanswered, and its reply is the route's as `res.send` writes it |
| Routes.NoRuleUnanswered | index.js:167-195 | an endpoint with no "default" rule and no selection pattern leaves every request routed to it unanswered, unless the handler succeeds with a lone number |
| Routes.UsersRoute | index.js:112-137 | with no prefix, the endpoint `GET users/{id}` is registered as `get /users/:id` |
| Routes.UsersReplies | index.js:142-195 | the path parameter id=42 alone gives the event {id: "42"}; a "NotFound: ..." rejection is answered 404 and a success 200 with the handler's value |

## Findings

| source | as written | input that shows it | evidently intended | confidence | as-written member | corrected member |
|---|---|---|---|---|---|---|
| index.js:119-121 | `cfPath.substr(cfPath.length - 1)` keeps only the last character, so any candidate longer than one character ending in '/' becomes "/" | prefix "api" (normalised "api/") and an endpoint mounted at "/": candidate "/api//" is registered as "/" instead of "/api"; the lemma states it for every plain segment in place of "api" | drop the trailing slashes one at a time (`substr(0, length - 1)`), keeping the root "/" | high; not executed | Paths.TrimTrailingFinding | Paths.TrimTrailingIntended |

`Paths.Translate` and the route table keep the loop as written, because
they describe the routes the program actually registers;
`Paths.TranslateIntended` composes the corrected loop with the same
segment mapping and `Paths.TranslateIntendedPlain` states what it
registers.

## Left out

- The Express app itself: route matching of requests against the
  registered patterns (which turns `/users/42` into `params.id = "42"`),
  precedence between duplicate routes, the 404 for unmatched paths, and an
  endpoint method that is not an Express verb; the model takes the matched
  route's reply as an input to `Routes.Serve`.
- `listen` on the port (default 1465) and `server.close()` after the quit
  reply: I/O.
- `bodyParser.json` with its 5mb limit: a foreign decoder; its rejections
  (answered before the CORS allow-methods/allow-headers are set) are not
  modelled, and a decoded body arrives as its own properties (an array
  body as its index keys).
- Promise sequencing: the at-most-once settlement of the result promise,
  and the hang when `err.toString()` throws on a null or undefined error;
  `render` is total.
- `fun.run`, `endpoint.toObjectPopulated` for a stage and region,
  `S.getProject`, the single-region lookup and the environment-variable
  override: Serverless framework calls. The run outcome and the (possibly
  populated) rule set are inputs.
- Module loading, `babel-register`, the init hook `_tryInit`, logging,
  the `DEBUG` route log and CLI option registration.
- The regular-expression engine and `toString`: parameters of the model.
- `toLocaleLowerCase` locale rules: ASCII lower-casing only.
- Numbers are integers. A fractional number used as a status (a rule's
  `statusCode` or a lone numeric payload) is not modelled; elsewhere
  floating point plays no part in the decisions.
- Assigning an event key `__proto__`, which sets the event's prototype
  instead of adding an own key: not modelled, the key is copied like any
  other.
- Rule fields other than `statusCode` and `selectionPattern`: they are
  copied onto the reply object but not used, except that a rule carrying a
  `result` field would override the body; rules are assumed not to.
- A truthy `selectionPattern` that is not a string: patterns are strings.
- Responses.FindResponse: selection patterns are assumed to compile. An
  invalid pattern makes `str.match` throw a SyntaxError: on a success the
  throw sends control to the `.catch`, which answers with the error's
  message, and reaching the bad pattern again there leaves the request
  hanging. `Matcher` is total, so neither path is modelled.
- Routes.Send: `null` and `undefined` payloads are written by Express as an
  empty body, and objects as JSON text; the model keeps the payload as a
  value. Headers `res.send` adds or removes (Content-Type, ETag,
  Content-Length) are not modelled, nor is freshness: a GET or HEAD whose
  `If-None-Match` matches the generated ETag is answered 304 with no body,
  which depends on request headers the model does not take.

=== FILE: events.dfy ===
/** Event building (index.js:142-161): the body, the path parameters and the
    query parameters of a request are copied, in that order, into one flat
    event object, so a later source overwrites an earlier one. */
module Events {
  import opened Options
  import opened Json

  /** The own enumerable properties of a request source or of the event. A
      map rather than the ordered `Obj` fields of `Value`: the merge only
      asks which keys are present and what each holds, and the order in
      which they were added plays no part in it. */
  type Props = map<string, Value>

  /** The copy loop guards each key with `src.hasOwnProperty(key)`. A source
      whose own property of that name shadows the method (always possible for
      a JSON body) makes the call throw a TypeError instead. */
  const ShadowKey: string := "hasOwnProperty"

  datatype EventResult = Built(event: Props) | Threw

  /** One `for (prop in src) if (src.hasOwnProperty(prop)) event[prop] = src[prop]`
      loop. */
  method CopyOwnProperties(event: Props, src: Props) returns (r: EventResult)
    ensures r.Threw? <==> ShadowKey in src
    ensures r.Built? ==> r.event.Keys == event.Keys + src.Keys
    ensures r.Built? ==> forall k :: k in src ==> r.event[k] == src[k]
    ensures r.Built? ==> forall k :: k in event && k !in src ==> r.event[k] == event[k]
  {
    if ShadowKey in src {
      return Threw;
    }
    var acc := event;
    var todo := src.Keys;
    while todo != {}
      invariant todo <= src.Keys
      invariant forall k :: k in acc <==> k in event || (k in src && k !in todo)
      invariant forall k :: k in src && k !in todo ==> acc[k] == src[k]
      invariant forall k :: k in event && k !in src ==> acc[k] == event[k]
      decreases todo
    {
      var k :| k in todo;
      acc := acc[k := src[k]];
      todo := todo - {k};
    }
    return Built(acc);
  }

  /** The value a key should carry in the event: the query value if there is
      one, else the path parameter, else the body value. */
  function Precedence(body: Props, params: Props, query: Props, k: string): Option<Value>
  {
    if k in query then Some(query[k])
    else if k in params then Some(params[k])
    else if k in body then Some(body[k])
    else None
  }

  /** The event as a whole: every key of the three sources, with the value
      `Precedence` assigns it. */
  function Merged(body: Props, params: Props, query: Props): (e: Props)
    ensures e.Keys == body.Keys + params.Keys + query.Keys
  {
    map k | k in body.Keys + params.Keys + query.Keys :: Precedence(body, params, query, k).value
  }

  /** The three copy loops in order. The event holds exactly the keys of the
      three sources, each with the value `Precedence` assigns it, unless one
      of the sources shadows `hasOwnProperty`. */
  method BuildEvent(body: Props, params: Props, query: Props) returns (r: EventResult)
    ensures r.Threw? <==> ShadowKey in body || ShadowKey in params || ShadowKey in query
    ensures r.Built? ==> r.event.Keys == body.Keys + params.Keys + query.Keys
    ensures r.Built? ==> forall k :: Precedence(body, params, query, k) ==
                           (if k in r.event then Some(r.event[k]) else None)
    ensures r.Built? ==> r.event == Merged(body, params, query)
  {
    var fromBody := CopyOwnProperties(map[], body);
    if fromBody.Threw? {
      return Threw;
    }
    assert fromBody.event == body;
    var fromParams := CopyOwnProperties(fromBody.event, params);
    if fromParams.Threw? {
      return Threw;
    }
    r := CopyOwnProperties(fromParams.event, query);
    if r.Built? {
      MergedAgrees(body, params, query, fromBody.event, fromParams.event, r.event);
    }
  }

  /** Three successive copies, each overwriting the keys of its source,
      produce the merged event. */
  lemma MergedAgrees(body: Props, params: Props, query: Props, e1: Props, e2: Props, e3: Props)
    requires e1 == body
    requires e2.Keys == e1.Keys + params.Keys
    requires forall k :: k in params ==> e2[k] == params[k]
    requires forall k :: k in e1 && k !in params ==> e2[k] == e1[k]
    requires e3.Keys == e2.Keys + query.Keys
    requires forall k :: k in query ==> e3[k] == query[k]
    requires forall k :: k in e2 && k !in query ==> e3[k] == e2[k]
    ensures forall k :: Precedence(body, params, query, k) == (if k in e3 then Some(e3[k]) else None)
    ensures e3 == Merged(body, params, query)
  {
    var m := Merged(body, params, query);
    assert forall k :: k in e3 ==> e3[k] == Precedence(body, params, query, k).value;
    assert m.Keys == e3.Keys;
  }
}

=== FILE: json.dfy ===
/** JavaScript values as they flow through the gateway emulation: decoded
    request bodies, handler responses and raw handler errors. */
module Json {

  /** A JSON-like JavaScript value. Numbers are integers here: floating
      point plays no part in routing or response selection. An object is
      kept as its own properties in enumeration order. */
  datatype Value =
    | Undefined
    | Null
    | Bool(b: bool)
    | Num(n: int)
    | Str(s: string)
    | Arr(items: seq<Value>)
    | Obj(fields: seq<(string, Value)>)
}

=== FILE: option.dfy ===
/** An optional value: JavaScript's `undefined` against a present value,
    wherever the program reads a property that may be missing. */
module Options {

  datatype Option<+T> = None | Some(value: T)
}

=== FILE: paths.dfy ===
/** Path translation: how `_createApp` normalises the URL prefix
    (index.js:59-65) and how `_registerLambdas` turns `prefix + endpoint.path`
    into an Express route pattern (index.js:112-132, 137). */
module Paths {
  import opened Options
  import opened Strings

  /** The prefix option is falsy when absent or empty; both become "". A
      non-empty prefix gets a '/' appended unless it already ends in one. */
  function NormalizePrefix(prefix: Option<string>): (r: string)
    ensures r == "" <==> (prefix == None || prefix == Some(""))
    ensures r == "" || EndsWith(r, Slash)
    ensures prefix.Some? ==> prefix.value <= r && |r| <= |prefix.value| + 1
    ensures prefix.Some? && EndsWith(prefix.value, Slash) ==> r == prefix.value
  {
    var p := if prefix.Some? then prefix.value else "";
    if |p| > 0 && p[|p| - 1] != Slash then p + [Slash] else p
  }

  /** Normalising an already normalised prefix changes nothing. */
  lemma NormalizePrefixIdempotent(prefix: Option<string>)
    ensures NormalizePrefix(Some(NormalizePrefix(prefix))) == NormalizePrefix(prefix)
  {
  }

  /** Lines 115-117: force a leading '/'. On an empty candidate `cfPath[0]`
      is undefined, which also differs from '/'. */
  function LeadingSlash(c: string): (r: string)
    ensures StartsWith(r, Slash)
    ensures StartsWith(c, Slash) ==> r == c
    ensures !StartsWith(c, Slash) ==> r == [Slash] + c
  {
    if |c| == 0 || c[0] != Slash then [Slash] + c else c
  }

  /** Lines 120-122 as written: while the candidate is longer than one
      character and ends in '/', it is replaced by `substr(length - 1)`, which
      keeps only its LAST character. */
  function TrimTrailing(c: string): (r: string)
    ensures r == c || r == [Slash]
    ensures |r| <= 1 || !EndsWith(r, Slash)
    decreases |c|
  {
    if |c| > 1 && c[|c| - 1] == Slash then TrimTrailing(c[|c| - 1..]) else c
  }

  /** Any candidate longer than one character that ends in '/' collapses to
      the root "/", whatever came before the final slash. */
  lemma {:induction false} TrimTrailingCollapses(c: string)
    requires |c| > 1 && EndsWith(c, Slash)
    ensures TrimTrailing(c) == "/"
  {
    assert c[|c| - 1..] == "/";
  }

  /** A candidate that does not end in '/' (or is at most one character long)
      is left as it is. */
  lemma TrimTrailingKeeps(c: string)
    requires |c| <= 1 || !EndsWith(c, Slash)
    ensures TrimTrailing(c) == c
  {
  }

  /** A segment wrapped in braces names a path parameter. */
  predicate IsParam(part: string)
  {
    |part| > 0 && part[0] == '{' && part[|part| - 1] == '}'
  }

  /** Lines 125-132: `{x}` becomes `:x`; every other segment, including the
      empty one and partially braced ones, is kept verbatim. */
  function MapSegment(part: string): (r: string)
    ensures IsParam(part) ==> r == [':'] + part[1..|part| - 1]
    ensures !IsParam(part) ==> r == part
    ensures Slash !in part ==> Slash !in r
    ensures |r| > 0 <==> |part| > 0
  {
    if IsParam(part) then [':'] + part[1..|part| - 1] else part
  }

  function MapSegments(parts: seq<string>): (r: seq<string>)
    ensures |r| == |parts|
    ensures forall i :: 0 <= i < |parts| ==> r[i] == MapSegment(parts[i])
  {
    seq(|parts|, i requires 0 <= i < |parts| => MapSegment(parts[i]))
  }

  /** `cfPath` once lines 113-122 have run: the candidate that is split into
      segments and logged. */
  function Candidate(prefix: string, path: string): string
  {
    TrimTrailing(LeadingSlash(prefix + path))
  }

  /** The Express route pattern registered at line 137. */
  function Translate(prefix: string, path: string): string
  {
    Join(MapSegments(Split(Candidate(prefix, path))))
  }

  /** Segment by segment, the route is the candidate with each parameter
      segment rewritten: splitting the route at '/' gives as many segments as
      splitting the candidate, and each is the candidate's segment mapped. */
  lemma TranslateSegments(prefix: string, path: string)
    ensures var parts := Split(Candidate(prefix, path));
            var routeParts := Split(Translate(prefix, path));
            |routeParts| == |parts| &&
            forall i :: 0 <= i < |parts| ==> routeParts[i] == MapSegment(parts[i])
  {
    var parts := Split(Candidate(prefix, path));
    var mapped := MapSegments(parts);
    SplitPieces(Candidate(prefix, path));
    SplitJoin(mapped);
  }

  /** The route starts with '/' and, unless it is the root, does not end in
      one. */
  lemma TranslateShape(prefix: string, path: string)
    ensures StartsWith(Translate(prefix, path), Slash)
    ensures Translate(prefix, path) == "/" || !EndsWith(Translate(prefix, path), Slash)
  {
    var c := Candidate(prefix, path);
    var parts := Split(c);
    var mapped := MapSegments(parts);
    SplitLeadingSlash(c);
    JoinLeadingEmpty(mapped);
    if c == "/" {
      RootRoute();
    } else {
      assert !EndsWith(c, Slash);
      var last := |parts| - 1;
      SplitLastNonEmpty(c);
      SplitPieces(c);
      assert |mapped[last]| > 0 && Slash !in mapped[last];
      JoinEndsWithLast(mapped);
    }
  }

  /** Line 121 in action: any candidate longer than one character that ends in
      '/' is registered as the root route "/". */
  lemma TranslateCollapses(prefix: string, path: string)
    requires |LeadingSlash(prefix + path)| > 1 && EndsWith(prefix + path, Slash)
    ensures Translate(prefix, path) == "/"
  {
    var c := LeadingSlash(prefix + path);
    TrimTrailingCollapses(c);
    RootRoute();
  }

  /** The root candidate "/" is two empty segments and is registered as "/". */
  lemma RootRoute()
    ensures Split("/") == ["", ""]
    ensures Join(MapSegments(Split("/"))) == "/"
  {
    assert "/"[..0] == "";
    assert MapSegments(["", ""]) == ["", ""];
    assert ["", ""][..1] == [""];
  }

  /** No '/'-separated segment of `s` is a braced parameter. */
  predicate PlainSegments(s: string)
  {
    forall i :: 0 <= i < |Split(s)| ==> !IsParam(Split(s)[i])
  }

  /** A path with no parameter segment and no trailing '/' is registered as
      prefix + path with its leading '/' forced: mapping the segments is the
      identity and joining them undoes the split. */
  lemma TranslatePlain(prefix: string, path: string)
    requires var c := LeadingSlash(prefix + path);
             |c| <= 1 || !EndsWith(c, Slash)
    requires PlainSegments(LeadingSlash(prefix + path))
    ensures Translate(prefix, path) == LeadingSlash(prefix + path)
  {
    var c := LeadingSlash(prefix + path);
    assert Candidate(prefix, path) == c;
    assert MapSegments(Split(c)) == Split(c);
    JoinSplit(c);
  }

  /** A parameter segment `{name}` of the candidate appears as `:name` at the
      same position of the route. */
  lemma TranslateParam(prefix: string, path: string, i: nat, name: string)
    requires i < |Split(Candidate(prefix, path))|
    requires Split(Candidate(prefix, path))[i] == "{" + name + "}"
    ensures i < |Split(Translate(prefix, path))|
    ensures Split(Translate(prefix, path))[i] == ":" + name
  {
    TranslateSegments(prefix, path);
    var part := "{" + name + "}";
    assert part[1..|part| - 1] == name;
  }

  /** A three-segment candidate is registered with each segment mapped in
      place. */
  lemma RouteOfThree(s: string, a: string, b: string, c: string)
    requires Slash !in a && Slash !in b && Slash !in c
    requires s == a + "/" + b + "/" + c
    ensures Join(MapSegments(Split(s))) == MapSegment(a) + "/" + MapSegment(b) + "/" + MapSegment(c)
  {
    var parts := Split(s);
    assert parts == [a, b, c] by {
      SplitThree(a, b, c);
    }
    var m := MapSegments(parts);
    assert m == [MapSegment(a), MapSegment(b), MapSegment(c)];
    JoinThree(MapSegment(a), MapSegment(b), MapSegment(c));
  }

  /** With no prefix, `seg/{name}` gains its leading '/' and keeps its last
      segment, since it does not end in '/'. */
  lemma ParamCandidate(seg: string, name: string, path: string)
    requires |seg| > 0 && Slash !in seg
    requires path == seg + "/" + ("{" + name + "}")
    ensures Candidate("", path) == "" + "/" + seg + "/" + ("{" + name + "}")
  {
    assert path[0] == seg[0];
    assert "" + path == path;
    var c := [Slash] + path;
    assert LeadingSlash(path) == c;
    assert c[|c| - 1] == '}';
    TrimTrailingKeeps(c);
  }

  /** The three segments of `/seg/{name}`, each mapped. A lemma of its own,
      like ParamCandidate, so that the solver meets these string constants
      apart from the split and join they are fed to. */
  lemma ParamSegments(seg: string, name: string)
    requires !IsParam(seg)
    ensures MapSegment("") + "/" + MapSegment(seg) + "/" + MapSegment("{" + name + "}")
         == "/" + seg + "/" + (":" + name)
  {
    var part := "{" + name + "}";
    assert IsParam(part);
    assert part[1..|part| - 1] == name;
    assert MapSegment(part) == ":" + name;
    assert MapSegment("") == "";
    assert MapSegment(seg) == seg;
  }

  /** With no prefix, `seg/{name}` is registered as `/seg/:name`. */
  lemma TranslateParamRoute(seg: string, name: string, path: string)
    requires |seg| > 0 && Slash !in seg && !IsParam(seg) && Slash !in name
    requires path == seg + "/" + ("{" + name + "}")
    ensures Translate("", path) == "/" + seg + "/" + (":" + name)
  {
    ParamCandidate(seg, name, path);
    var part := "{" + name + "}";
    assert Slash !in part;
    RouteOfThree(Candidate("", path), "", seg, part);
    ParamSegments(seg, name);
  }

  // Facts about split and join that the shape of a route rests on.

  lemma {:induction false} SplitLeadingSlash(s: string)
    requires StartsWith(s, Slash)
    ensures |Split(s)| >= 2 && Split(s)[0] == ""
  {
    if |s| == 1 {
      assert s[..0] == "";
    } else {
      var init := s[..|s| - 1];
      SplitLeadingSlash(init);
    }
  }

  lemma SplitLastNonEmpty(s: string)
    requires |s| > 0 && !EndsWith(s, Slash)
    ensures |Split(s)[|Split(s)| - 1]| > 0
  {
  }

  lemma {:induction false} JoinLeadingEmpty(parts: seq<string>)
    requires |parts| >= 2 && parts[0] == ""
    ensures StartsWith(Join(parts), Slash)
  {
    if |parts| > 2 {
      JoinLeadingEmpty(parts[..|parts| - 1]);
    }
  }

  lemma JoinEndsWithLast(parts: seq<string>)
    requires |parts| > 0 && |parts[|parts| - 1]| > 0
    requires Slash !in parts[|parts| - 1]
    ensures !EndsWith(Join(parts), Slash)
  {
    var last := parts[|parts| - 1];
    var j := Join(parts);
    if |parts| > 1 {
      var pre := Join(parts[..|parts| - 1]) + [Slash];
      assert j == pre + last;
      assert j[|j| - 1] == last[|last| - 1];
    }
    assert last[|last| - 1] in last;
  }

  // The trailing-slash loop as its comment describes it: strip every
  // trailing '/', keeping the root.

  /** Strips all trailing slashes of a candidate but never empties it below
      one character. */
  function TrimTrailingIntended(c: string): (r: string)
    ensures r <= c
    ensures |r| <= 1 || !EndsWith(r, Slash)
    ensures OnlySlashes(c[|r|..])
    ensures |c| > 0 ==> |r| > 0
    decreases |c|
  {
    if |c| > 1 && c[|c| - 1] == Slash then
      var r := TrimTrailingIntended(c[..|c| - 1]);
      assert c[|r|..] == c[..|c| - 1][|r|..] + [Slash];
      r
    else
      assert c[|c|..] == [];
      c
  }

  predicate OnlySlashes(s: string)
  {
    forall i :: 0 <= i < |s| ==> s[i] == Slash
  }

  function TranslateIntended(prefix: string, path: string): string
  {
    Join(MapSegments(Split(TrimTrailingIntended(LeadingSlash(prefix + path)))))
  }

  /** The discrepancy: with a prefix such as "api" (normalised to "api/") a
      lambda mounted at "/" gives the candidate "/api//", which the loop as
      written turns into the root route "/" while the intended loop yields
      "/api". */
  lemma TrimTrailingFinding(p: string)
    requires |p| > 0 && Slash !in p && !IsParam(p)
    ensures Translate(p + "/", "/") == "/"
    ensures TranslateIntended(p + "/", "/") == "/" + p
  {
    var c := p + "/" + "/";
    assert c[0] == p[0] && p[0] in p;
    assert LeadingSlash(c) == [Slash] + c;
    TranslateCollapses(p + "/", "/");
    IntendedRootMount(p);
  }

  lemma IntendedRootMount(p: string)
    requires |p| > 0 && Slash !in p && !IsParam(p)
    ensures TranslateIntended(p + "/", "/") == "/" + p
  {
    RootMountTrim(p);
    RootMountRoute(p);
  }

  lemma RootMountTrim(p: string)
    requires |p| > 0 && Slash !in p
    ensures TrimTrailingIntended(LeadingSlash(p + "/" + "/")) == [Slash] + p
  {
    var t := [Slash] + p;
    var c := p + "/" + "/";
    assert c[0] == p[0] && p[0] in p;
    assert LeadingSlash(c) == (t + "/") + "/";
    TrimIntendedDrop(t + "/");
    TrimIntendedDrop(t);
    assert t[|t| - 1] == p[|p| - 1] && p[|p| - 1] in p;
  }

  lemma RootMountRoute(p: string)
    requires Slash !in p && !IsParam(p)
    ensures Join(MapSegments(Split([Slash] + p))) == "/" + p
  {
    var t := [Slash] + p;
    assert Split(t) == ["", p] by {
      SplitAppend("", p);
      assert "" + [Slash] + p == t;
    }
    var m := MapSegments(["", p]);
    assert m == ["", p];
    assert m[..1] == [""];
  }

  /** One trailing '/' of a candidate longer than one character is dropped. */
  lemma TrimIntendedDrop(t: string)
    requires |t| > 0
    ensures TrimTrailingIntended(t + "/") == TrimTrailingIntended(t)
  {
    assert (t + "/")[..|t|] == t;
  }

  /** With the intended loop, a candidate keeps everything up to its last
      non-slash character: the route of a parameter-free path is the
      candidate with its trailing slashes removed, and never collapses a
      non-root path to "/". */
  lemma TranslateIntendedPlain(prefix: string, path: string)
    requires PlainSegments(TrimTrailingIntended(LeadingSlash(prefix + path)))
    ensures TranslateIntended(prefix, path) == TrimTrailingIntended(LeadingSlash(prefix + path))
    ensures TranslateIntended(prefix, path) <= LeadingSlash(prefix + path)
  {
    var t := TrimTrailingIntended(LeadingSlash(prefix + path));
    var parts := Split(t);
    assert MapSegments(parts) == parts;
    JoinSplit(t);
  }
}

=== FILE: responses.dfy ===
/** Response rule selection and outcome mapping (index.js:167-199): the
    endpoint's response rules are searched in key order for the first
    non-default rule whose selection pattern matches a string, and the
    handler's outcome becomes an HTTP status and body. */
module Responses {
  import opened Options
  import opened Json

  const DefaultName: string := "default"

  /** One response rule of an endpoint. Only the status code and the
      selection pattern take part in the reply; the pattern is missing when
      the rule declares none. */
  datatype Rule = Rule(statusCode: int, selectionPattern: Option<string>)

  /** The rule set `endpoint.responses` as (name, rule) pairs in
      `Object.keys` order. */
  type Entry = (string, Rule)

  /** `str.match(pattern)` returns a match (truthy) or null: the regular
      expression engine is a parameter of the model. */
  type Matcher = (string, string) -> bool

  /** `err.toString()`, also a parameter. */
  type Render = Value -> string

  /** The test inside the `forEach` of `findResponse`: not the default rule,
      a truthy (present, non-empty) pattern, and the pattern matches. */
  predicate Qualifies(e: Entry, s: string, matches: Matcher)
  {
    && e.0 != DefaultName
    && e.1.selectionPattern.Some?
    && e.1.selectionPattern.value != ""
    && matches(s, e.1.selectionPattern.value)
  }

  /** The index of the earliest qualifying entry at or after `i`. */
  function FirstQualifying(rules: seq<Entry>, s: string, matches: Matcher, i: nat): (r: Option<nat>)
    requires i <= |rules|
    ensures r.Some? ==> i <= r.value < |rules| && Qualifies(rules[r.value], s, matches)
    ensures r.Some? ==> forall j :: i <= j < r.value ==> !Qualifies(rules[j], s, matches)
    ensures r.None? ==> forall j :: i <= j < |rules| ==> !Qualifies(rules[j], s, matches)
    decreases |rules| - i
  {
    if i == |rules| then None
    else if Qualifies(rules[i], s, matches) then Some(i)
    else FirstQualifying(rules, s, matches, i + 1)
  }

  /** `responses[name]`: the rule stored under `name`, if any. */
  function Lookup(rules: seq<Entry>, name: string): (r: Option<Rule>)
    ensures r.Some? ==> exists j :: 0 <= j < |rules| && rules[j] == (name, r.value)
    ensures r.None? <==> forall j :: 0 <= j < |rules| ==> rules[j].0 != name
  {
    if |rules| == 0 then None
    else if rules[0].0 == name then Some(rules[0].1)
    else
      var r := Lookup(rules[1..], name);
      assert forall j :: 1 <= j < |rules| ==> rules[j] == rules[1..][j - 1];
      r
  }

  /** Rule names are object keys, hence distinct. */
  predicate DistinctNames(rules: seq<Entry>)
  {
    forall i, j :: 0 <= i < j < |rules| ==> rules[i].0 != rules[j].0
  }

  /** The rule the selection should produce: the earliest qualifying entry
      in declared order, else the default rule (missing when the rule set
      has none). */
  function SelectRule(rules: seq<Entry>, s: string, matches: Matcher): (r: Option<Rule>)
    ensures r.Some? ==> exists j :: 0 <= j < |rules| && rules[j].1 == r.value
    ensures r.None? <==>
      (forall j :: 0 <= j < |rules| ==> !Qualifies(rules[j], s, matches) && rules[j].0 != DefaultName)
  {
    match FirstQualifying(rules, s, matches, 0)
    case Some(i) => Some(rules[i].1)
    case None => Lookup(rules, DefaultName)
  }

  /** `findResponse(str)` as written: one pass over every key that keeps the
      first rule passing the test (`!response && ...`), then `response ||
      responses['default']`. It selects exactly the rule `SelectRule`
      describes. */
  method FindResponse(rules: seq<Entry>, s: string, matches: Matcher) returns (r: Option<Rule>)
    ensures r == SelectRule(rules, s, matches)
  {
    var response: Option<Rule> := None;
    ghost var at: nat := 0;
    for i := 0 to |rules|
      invariant response.None? ==> forall j :: 0 <= j < i ==> !Qualifies(rules[j], s, matches)
      invariant response.Some? ==> at < i && Qualifies(rules[at], s, matches) && response.value == rules[at].1
      invariant response.Some? ==> forall j :: 0 <= j < at ==> !Qualifies(rules[j], s, matches)
    {
      if response.None? && Qualifies(rules[i], s, matches) {
        response := Some(rules[i].1);
        at := i;
      }
    }
    var first := FirstQualifying(rules, s, matches, 0);
    if response.Some? {
      assert first == Some(at);
      r := response;
    } else {
      r := Lookup(rules, DefaultName);
    }
  }

  /** What `fun.run` settles with: a result object whose `status` is
      compared with 'success', or a rejection. */
  datatype RunResult =
    | Settled(status: string, response: Value, error: Value)
    | Rejected(reason: Value)

  /** The status written and the body sent; the status is missing when no
      rule was found (no qualifying rule and no default). */
  datatype Reply = Reply(status: Option<int>, body: Value)

  function StatusOf(rule: Option<Rule>): Option<int>
  {
    if rule.Some? then Some(rule.value.statusCode) else None
  }

  function ErrorBody(err: Value): Value
  {
    Obj([("errorMessage", err)])
  }

  /** The raw error a failed outcome carries: `res.error` re-thrown by the
      success handler, or the rejection reason. */
  function FailureOf(outcome: RunResult): Value
    requires !(outcome.Settled? && outcome.status == "success")
  {
    if outcome.Settled? then outcome.error else outcome.reason
  }

  /** Lines 177-189 and 192-195: a success replies with the handler's
      response and the status of `findResponse('')`; anything else replies
      with `{errorMessage: err}` and the status of the rule selected by the
      rendered error. */
  function Respond(outcome: RunResult, rules: seq<Entry>, matches: Matcher, render: Render): (r: Reply)
    ensures r.status.Some? ==> exists j :: 0 <= j < |rules| && rules[j].1.statusCode == r.status.value
  {
    if outcome.Settled? && outcome.status == "success" then
      Reply(StatusOf(SelectRule(rules, "", matches)), outcome.response)
    else
      var err := FailureOf(outcome);
      Reply(StatusOf(SelectRule(rules, render(err), matches)), ErrorBody(err))
  }

  /** Entry `i` is the earliest entry qualifying for `s`. */
  predicate EarliestQualifying(rules: seq<Entry>, s: string, matches: Matcher, i: nat)
  {
    && i < |rules|
    && Qualifies(rules[i], s, matches)
    && forall j :: 0 <= j < i ==> !Qualifies(rules[j], s, matches)
  }

  predicate NoneQualifies(rules: seq<Entry>, s: string, matches: Matcher)
  {
    forall j :: 0 <= j < |rules| ==> !Qualifies(rules[j], s, matches)
  }

  /** The selection in terms of the two predicates above: the earliest
      qualifying entry's rule, or the default rule when none qualifies. */
  lemma SelectRuleSpec(rules: seq<Entry>, s: string, matches: Matcher)
    ensures NoneQualifies(rules, s, matches) ==> SelectRule(rules, s, matches) == Lookup(rules, DefaultName)
    ensures forall i: nat :: EarliestQualifying(rules, s, matches, i) ==> SelectRule(rules, s, matches) == Some(rules[i].1)
  {
    var first := FirstQualifying(rules, s, matches, 0);
    forall i: nat | EarliestQualifying(rules, s, matches, i)
      ensures first == Some(i)
    {
    }
  }

  /** A success replies with the handler's response. Its status is the
      default rule's exactly when no non-default rule qualifies for the
      empty string; otherwise it is the status of the earliest rule whose
      pattern matches the empty string. */
  lemma SuccessReply(response: Value, error: Value, rules: seq<Entry>, matches: Matcher, render: Render)
    ensures Respond(Settled("success", response, error), rules, matches, render).body == response
    ensures NoneQualifies(rules, "", matches) ==>
              Respond(Settled("success", response, error), rules, matches, render).status ==
              StatusOf(Lookup(rules, DefaultName))
    ensures forall i: nat :: EarliestQualifying(rules, "", matches, i) ==>
              Respond(Settled("success", response, error), rules, matches, render).status ==
              Some(rules[i].1.statusCode)
  {
    SelectRuleSpec(rules, "", matches);
  }

  /** A failure (a settled status other than 'success', or a rejection)
      replies with `{errorMessage: err}`, and its status is that of the
      earliest rule matching the rendered error, or the default rule's when
      none does. */
  lemma FailureReply(outcome: RunResult, err: Value, rules: seq<Entry>, matches: Matcher, render: Render)
    requires outcome == Rejected(err) || (outcome.Settled? && outcome.status != "success" && outcome.error == err)
    ensures Respond(outcome, rules, matches, render).body == Obj([("errorMessage", err)])
    ensures NoneQualifies(rules, render(err), matches) ==>
              Respond(outcome, rules, matches, render).status == StatusOf(Lookup(rules, DefaultName))
    ensures forall i: nat :: EarliestQualifying(rules, render(err), matches, i) ==>
              Respond(outcome, rules, matches, render).status == Some(rules[i].1.statusCode)
  {
    SelectRuleSpec(rules, render(err), matches);
  }

  /** Selection is by declared order and not by name: of two qualifying
      rules, the one listed first wins. */
  lemma EarlierRuleWins(rules: seq<Entry>, s: string, matches: Matcher, i: nat, k: nat)
    requires i < k < |rules|
    requires Qualifies(rules[i], s, matches) && Qualifies(rules[k], s, matches)
    ensures !EarliestQualifying(rules, s, matches, k)
    ensures exists m: nat :: m <= i && EarliestQualifying(rules, s, matches, m) &&
                             SelectRule(rules, s, matches) == Some(rules[m].1)
  {
    var m := FirstQualifying(rules, s, matches, 0).value;
    assert EarliestQualifying(rules, s, matches, m);
  }

  /** A success does not always pick the default rule: a non-default rule
      whose pattern matches the empty string wins. */
  lemma SuccessCanMissDefault()
    ensures var rules := [("anything", Rule(500, Some(".*"))), (DefaultName, Rule(200, None))];
            Respond(Settled("success", Null, Undefined), rules, (s, p) => true, (v: Value) => "").status == Some(500)
  {
  }

  /** With distinct names, when nothing qualifies the reply carries the
      status of the one entry named "default". */
  lemma DefaultFallback(rules: seq<Entry>, s: string, matches: Matcher, d: nat)
    requires DistinctNames(rules)
    requires d < |rules| && rules[d].0 == DefaultName
    requires forall j :: 0 <= j < |rules| ==> !Qualifies(rules[j], s, matches)
    ensures SelectRule(rules, s, matches) == Some(rules[d].1)
  {
    var r := Lookup(rules, DefaultName);
    var j :| 0 <= j < |rules| && rules[j] == (DefaultName, r.value);
    assert j == d;
  }
}

=== FILE: routes.dfy ===
/** The route table `_registerLambdas` builds (index.js:99-137), the
    middleware in front of it that `_createApp` installs (index.js:67-89),
    and the handler each route runs (index.js:140-199). */
module Routes {
  import opened Options
  import opened Json
  import opened Strings
  import opened Paths
  import opened Events
  import opened Responses

  /** Only functions whose runtime has this name are served. */
  const Nodejs: string := "nodejs"

  datatype Endpoint = Endpoint(httpMethod: string, path: string, responses: seq<Entry>)

  datatype Function = Function(name: string, runtime: string, endpoints: seq<Endpoint>)

  /** One `app[verb](pattern, handler)` registration. */
  datatype Route = Route(verb: string, pattern: string, endpoint: Endpoint, owner: string)

  /** The registration of one endpoint of function `owner` under the
      normalised prefix. */
  function Register(prefix: string, e: Endpoint, owner: string): (r: Route)
    ensures r.endpoint == e && r.owner == owner
    ensures StartsWith(r.pattern, Slash)
  {
    TranslateShape(prefix, e.path);
    Route(ToLowerAscii(e.httpMethod), Translate(prefix, e.path), e, owner)
  }

  /** The verb an endpoint is registered under is its method with every
      upper-case letter lowered and nothing else changed. */
  lemma RegisterVerb(prefix: string, e: Endpoint, owner: string)
    ensures |Register(prefix, e, owner).verb| == |e.httpMethod|
    ensures forall i :: 0 <= i < |e.httpMethod| ==>
              var v := Register(prefix, e, owner).verb[i];
              !('A' <= v <= 'Z') && (v == e.httpMethod[i] || v as int == e.httpMethod[i] as int + 32)
  {
  }

  /** Every endpoint of every Node.js function, registered in declaration
      order; functions of other runtimes contribute nothing. */
  function RouteTable(prefix: string, fns: seq<Function>): (t: seq<Route>)
  {
    if |fns| == 0 then []
    else RouteTable(prefix, fns[..|fns| - 1]) + OwnRoutes(prefix, fns[|fns| - 1])
  }

  /** The routes one function registers: one per endpoint if it runs on
      Node.js, none otherwise. */
  function OwnRoutes(prefix: string, f: Function): (t: seq<Route>)
    ensures f.runtime == Nodejs ==> |t| == |f.endpoints|
    ensures f.runtime == Nodejs ==> forall j :: 0 <= j < |t| ==> t[j] == Register(prefix, f.endpoints[j], f.name)
    ensures f.runtime != Nodejs ==> t == []
  {
    if f.runtime == Nodejs
    then seq(|f.endpoints|, j requires 0 <= j < |f.endpoints| => Register(prefix, f.endpoints[j], f.name))
    else []
  }

  /** Each endpoint of a Node.js function has its route in the table. */
  lemma {:induction false} RouteTableComplete(prefix: string, fns: seq<Function>, k: nat, j: nat)
    requires k < |fns| && fns[k].runtime == Nodejs && j < |fns[k].endpoints|
    ensures Register(prefix, fns[k].endpoints[j], fns[k].name) in RouteTable(prefix, fns)
  {
    var init := fns[..|fns| - 1];
    var own := OwnRoutes(prefix, fns[|fns| - 1]);
    if k == |fns| - 1 {
      assert own[j] in RouteTable(prefix, init) + own;
    } else {
      assert init[k] == fns[k];
      RouteTableComplete(prefix, init, k, j);
    }
  }

  /** Every route in the table is the registration of an endpoint of a
      Node.js function. */
  lemma {:induction false} RouteTableSound(prefix: string, fns: seq<Function>, r: Route)
    requires r in RouteTable(prefix, fns)
    ensures exists k, j :: 0 <= k < |fns| && fns[k].runtime == Nodejs &&
              0 <= j < |fns[k].endpoints| && r == Register(prefix, fns[k].endpoints[j], fns[k].name)
  {
    var init := fns[..|fns| - 1];
    var f := fns[|fns| - 1];
    if r in RouteTable(prefix, init) {
      RouteTableSound(prefix, init, r);
      var k, j :| 0 <= k < |init| && init[k].runtime == Nodejs &&
                  0 <= j < |init[k].endpoints| && r == Register(prefix, init[k].endpoints[j], init[k].name);
      assert fns[k] == init[k];
    } else {
      var own := OwnRoutes(prefix, f);
      assert r in own;
      var j :| 0 <= j < |own| && own[j] == r;
      assert fns[|fns| - 1] == f;
    }
  }

  /** `_this.handlers`: the Node.js functions by name, a later function
      replacing an earlier one of the same name. */
  function Handlers(fns: seq<Function>): (h: map<string, Function>)
    ensures forall name :: name in h <==>
              exists k :: 0 <= k < |fns| && fns[k].runtime == Nodejs && fns[k].name == name
    ensures forall name :: name in h ==> h[name].name == name && h[name].runtime == Nodejs && h[name] in fns
  {
    if |fns| == 0 then map[]
    else
      var init := Handlers(fns[..|fns| - 1]);
      var f := fns[|fns| - 1];
      assert forall k :: 0 <= k < |fns| - 1 ==> fns[..|fns| - 1][k] == fns[k];
      if f.runtime == Nodejs then init[f.name := f] else init
  }

  /** A Node.js function that no later Node.js function shares its name with
      is the handler under that name. */
  lemma {:induction false} HandlersLastWins(fns: seq<Function>, k: nat)
    requires k < |fns| && fns[k].runtime == Nodejs
    requires forall k' :: k < k' < |fns| && fns[k'].runtime == Nodejs ==> fns[k'].name != fns[k].name
    ensures fns[k].name in Handlers(fns) && Handlers(fns)[fns[k].name] == fns[k]
  {
    var init := fns[..|fns| - 1];
    if k < |fns| - 1 {
      assert init[k] == fns[k];
      HandlersLastWins(init, k);
    }
  }

  // The front door.

  const AllowOrigin: string := "Access-Control-Allow-Origin"
  const AllowMethods: string := "Access-Control-Allow-Methods"
  const AllowHeaders: string := "Access-Control-Allow-Headers"

  /** The headers the two CORS middlewares set on every request that gets
      past the quit route. */
  const CorsHeaders: map<string, string> := map[
    AllowOrigin := "*",
    AllowMethods := "GET,PUT,HEAD,PATCH,POST,DELETE,OPTIONS",
    AllowHeaders := "Authorization,Content-Type,x-amz-date,x-amz-security-token"
  ]

  /** Whether `app.get('/__quit', ...)` takes the request under Express 4's
      default routing: a GET route also answers HEAD, paths compare without
      regard to case, and one trailing slash is allowed. */
  predicate QuitMatches(httpMethod: string, path: string)
  {
    && (httpMethod == "GET" || httpMethod == "HEAD")
    && (ToLowerAscii(path) == "/__quit" || ToLowerAscii(path) == "/__quit/")
  }

  /** Where a request ends up: the quit route, registered first; the
      OPTIONS short-circuit (an exact, case-sensitive comparison); or the
      endpoint routes. */
  datatype Decision = Quit | Preflight | ToRoute

  function FrontDoor(httpMethod: string, path: string): (d: Decision)
    ensures d == Quit <==> QuitMatches(httpMethod, path)
    ensures d == Preflight <==> !QuitMatches(httpMethod, path) && httpMethod == "OPTIONS"
  {
    if QuitMatches(httpMethod, path) then Quit
    else if httpMethod != "OPTIONS" then ToRoute
    else Preflight
  }

  /** What the client receives: a status line with headers and, unless the
      response is ended without one, a body; or nothing at all, when writing
      the status throws and the request is left unanswered. */
  datatype HttpResponse =
    | Answered(status: int, headers: map<string, string>, body: Option<Value>)
    | Unanswered

  const QuitBody: Value := Obj([("ok", Bool(true))])

  /** Express's table of status messages (`statuses[code]`), a parameter:
      `res.send` of a lone number replies with that number's message. */
  type StatusMessage = int -> string

  /** Node's `writeHead` accepts a status code from 100 to 999; a missing
      status (`undefined`, which it coerces to 0) or any other code makes it
      throw. */
  predicate Writable(status: Option<int>)
  {
    status.Some? && 100 <= status.value <= 999
  }

  /** Responses without a body: any response to HEAD, and the statuses for
      which Node never writes one (1xx, 204 No Content, 304 Not Modified). */
  predicate Bodiless(httpMethod: string, code: int)
  {
    httpMethod == "HEAD" || 100 <= code <= 199 || code == 204 || code == 304
  }

  /** `res.send(payload)` after `res.status(status)` under Express 4. A lone
      number is taken as a status code (the deprecated `res.send(status)`
      form), which replaces the status and sends the code's message. When
      the final status is not one `writeHead` accepts, the throw escapes the
      success callback of `result.then` (index.js:192-195), whose own
      rejection handler does not see it, so no reply is ever written. */
  function Send(httpMethod: string, headers: map<string, string>, status: Option<int>, payload: Value,
                message: StatusMessage): (r: HttpResponse)
    ensures payload.Num? ==> (r.Unanswered? <==> !(100 <= payload.n <= 999))
    ensures !payload.Num? ==> (r.Unanswered? <==> !Writable(status))
    ensures r.Answered? ==> r.headers == headers
    ensures r.Answered? && payload.Num? ==> r.status == payload.n
    ensures r.Answered? && !payload.Num? ==> status == Some(r.status)
    ensures r.Answered? ==> (r.body.None? <==> Bodiless(httpMethod, r.status))
    ensures r.Answered? && r.body.Some? && payload.Num? ==> r.body == Some(Str(message(payload.n)))
    ensures r.Answered? && r.body.Some? && !payload.Num? ==> r.body == Some(payload)
  {
    var final := if payload.Num? then Some(payload.n) else status;
    var sent := if payload.Num? then Str(message(payload.n)) else payload;
    if !Writable(final) then Unanswered
    else Answered(final.value, headers, if Bodiless(httpMethod, final.value) then None else Some(sent))
  }

  /** The response to a request, given the reply the matched endpoint route
      would produce. The quit reply is sent before any CORS header is set;
      every other response carries all three CORS headers; a preflight is a
      bare 200; no response to a HEAD request has a body; only an endpoint
      route can leave a request unanswered. */
  function Serve(httpMethod: string, path: string, routed: Reply, message: StatusMessage): (resp: HttpResponse)
    ensures resp.Unanswered? ==> !QuitMatches(httpMethod, path) && httpMethod != "OPTIONS"
    ensures resp.Answered? ==> (AllowOrigin in resp.headers <==> !QuitMatches(httpMethod, path))
    ensures resp.Answered? && httpMethod == "HEAD" ==> resp.body == None
    ensures QuitMatches(httpMethod, path) ==> resp.Answered? && resp.status == 200
    ensures QuitMatches(httpMethod, path) && httpMethod == "GET" ==> resp.body == Some(QuitBody)
    ensures !QuitMatches(httpMethod, path) && resp.Answered? ==> resp.headers[AllowOrigin] == "*"
    ensures !QuitMatches(httpMethod, path) && httpMethod == "OPTIONS" ==>
              resp.Answered? && resp.status == 200 && resp.body == None
    ensures !QuitMatches(httpMethod, path) && httpMethod != "OPTIONS" ==>
              resp == Send(httpMethod, CorsHeaders, routed.status, routed.body, message)
  {
    match FrontDoor(httpMethod, path)
    case Quit => Send(httpMethod, map[], Some(200), QuitBody, message)
    case Preflight => Answered(200, CorsHeaders, None)
    case ToRoute => Send(httpMethod, CorsHeaders, routed.status, routed.body, message)
  }

  /** An endpoint with neither a "default" rule nor any selection pattern
      selects no rule for any string, so its reply has no status, and the
      request is never answered unless the handler succeeded with a lone
      number (which supplies a status of its own). */
  lemma NoRuleUnanswered(httpMethod: string, path: string, outcome: RunResult, rules: seq<Entry>,
                         matches: Matcher, render: Render, message: StatusMessage)
    requires !QuitMatches(httpMethod, path) && httpMethod != "OPTIONS"
    requires forall j :: 0 <= j < |rules| ==> rules[j].0 != DefaultName && rules[j].1.selectionPattern.None?
    requires !(outcome.Settled? && outcome.status == "success" && outcome.response.Num?)
    ensures Serve(httpMethod, path, Respond(outcome, rules, matches, render), message) == Unanswered
  {
    var reply := Respond(outcome, rules, matches, render);
    if outcome.Settled? && outcome.status == "success" {
      assert SelectRule(rules, "", matches) == None;
    } else {
      assert SelectRule(rules, render(FailureOf(outcome)), matches) == None;
    }
    assert reply.status == None;
  }

  // The route handler.

  /** `res.sendStatus(500)`, written when the result promise rejects. */
  const InternalError: Reply := Reply(Some(500), Str("Internal Server Error"))

  /** One request to an endpoint route: build the event, run the function
      (`run` stands for `fun.run`), select the rule and reply. A source that
      shadows `hasOwnProperty` makes the promise executor throw, so the reply
      is a bare 500; otherwise the reply is that of the function's outcome
      on the merged event. */
  method HandleRoute(body: Props, params: Props, query: Props, rules: seq<Entry>,
                     run: Props -> RunResult, matches: Matcher, render: Render) returns (reply: Reply)
    ensures (ShadowKey in body || ShadowKey in params || ShadowKey in query) ==> reply == InternalError
    ensures !(ShadowKey in body || ShadowKey in params || ShadowKey in query) ==>
              reply == Respond(run(Merged(body, params, query)), rules, matches, render)
  {
    var built := BuildEvent(body, params, query);
    if built.Threw? {
      return InternalError;
    }
    var outcome := run(built.event);
    var rule: Option<Rule>;
    var result: Value;
    if outcome.Settled? && outcome.status == "success" {
      rule := FindResponse(rules, "", matches);
      result := outcome.response;
    } else {
      var err := FailureOf(outcome);
      rule := FindResponse(rules, render(err), matches);
      result := ErrorBody(err);
    }
    reply := Reply(StatusOf(rule), result);
  }

  // The scenario of an endpoint `GET users/{id}` with a default rule and a
  // `notFound` rule selected by "^NotFound".

  const UsersRules: seq<Entry> := [(DefaultName, Rule(200, None)), ("notFound", Rule(404, Some("^NotFound")))]

  /** A stand-in for the regular expression "^NotFound": the string starts
      with "NotFound". */
  function StartsNotFound(s: string, pattern: string): bool
  {
    pattern == "^NotFound" && |s| >= 8 && s[..8] == "NotFound"
  }

  function RenderString(v: Value): string
  {
    if v.Str? then v.s else ""
  }

  /** Lower-casing "GET", kept apart from the route it names: the solver
      unfolds functions applied to string constants, and a small context keeps
      that cheap. */
  lemma LowerGet(m: string)
    requires m == "GET"
    ensures ToLowerAscii(m) == "get"
  {
  }

  /** With no prefix the endpoint `GET users/{id}` is registered as
      `get /users/:id`. */
  lemma UsersRoute(e: Endpoint)
    requires e.httpMethod == "GET" && e.path == "users/{id}"
    ensures Register("", e, "users").verb == "get"
    ensures Register("", e, "users").pattern == "/users/:id"
  {
    LowerGet(e.httpMethod);
    UsersTranslate(e.path);
  }

  lemma UsersTranslate(path: string)
    requires path == "users/{id}"
    ensures Translate("", path) == "/users/:id"
  {
    var seg, name := "users", "id";
    UsersPieces(path, seg, name);
    TranslateParamRoute(seg, name, path);
  }

  /** The string facts the users route needs, proved apart for the same
      reason as LowerGet. */
  lemma UsersPieces(path: string, seg: string, name: string)
    requires path == "users/{id}" && seg == "users" && name == "id"
    ensures path == seg + "/" + ("{" + name + "}")
    ensures |seg| > 0 && Slash !in seg && !IsParam(seg) && Slash !in name
    ensures "/" + seg + "/" + (":" + name) == "/users/:id"
  {
  }

  /** The handler receives `{id: "42"}` for `/users/42` and, failing with
      "NotFound: no such user", is answered 404; succeeding with a value, it
      is answered 200 with that value. */
  lemma UsersReplies(response: Value)
    ensures Merged(map[], map["id" := Str("42")], map[]) == map["id" := Str("42")]
    ensures Respond(Rejected(Str("NotFound: no such user")), UsersRules, StartsNotFound, RenderString).status == Some(404)
    ensures Respond(Settled("success", response, Undefined), UsersRules, StartsNotFound, RenderString) == Reply(Some(200), response)
  {
    assert "NotFound: no such user"[..8] == "NotFound";
    assert EarliestQualifying(UsersRules, "NotFound: no such user", StartsNotFound, 1);
    FailureReply(Rejected(Str("NotFound: no such user")), Str("NotFound: no such user"), UsersRules, StartsNotFound, RenderString);
  }
}

=== FILE: strings.dfy ===
/** The string operations the path translator relies on: JavaScript's
    `String.prototype.split('/')` and `Array.prototype.join('/')`, and
    ASCII lower-casing. */
module Strings {

  const Slash: char := '/'

  predicate EndsWith(s: string, c: char)
  {
    |s| > 0 && s[|s| - 1] == c
  }

  predicate StartsWith(s: string, c: char)
  {
    |s| > 0 && s[0] == c
  }

  /** Number of occurrences of `c` in `s`. */
  function Count(s: string, c: char): nat
  {
    if |s| == 0 then 0
    else Count(s[..|s| - 1], c) + (if s[|s| - 1] == c then 1 else 0)
  }

  /** `s.split('/')`: the maximal slash-free pieces between separators. An
      empty string splits into one empty piece, and every separator starts a
      new piece, so adjacent, leading and trailing separators give empty
      pieces. */
  function Split(s: string): (parts: seq<string>)
    ensures |parts| > 0
  {
    if |s| == 0 then [""]
    else
      var init := Split(s[..|s| - 1]);
      var c := s[|s| - 1];
      if c == Slash then init + [""]
      else init[..|init| - 1] + [init[|init| - 1] + [c]]
  }

  /** `split('/')` yields one more piece than there are separators, and no
      piece contains one. */
  lemma {:induction false} SplitPieces(s: string)
    ensures |Split(s)| == Count(s, Slash) + 1
    ensures forall i :: 0 <= i < |Split(s)| ==> Slash !in Split(s)[i]
  {
    if |s| > 0 {
      var init := Split(s[..|s| - 1]);
      SplitPieces(s[..|s| - 1]);
      var c := s[|s| - 1];
      if c != Slash {
        var last := init[|init| - 1];
        assert Slash !in last + [c] by {
          forall i | 0 <= i < |last + [c]| ensures (last + [c])[i] != Slash {
            if i < |last| {
              assert (last + [c])[i] == last[i];
            }
          }
        }
      }
    }
  }

  /** `parts.join('/')`. */
  function Join(parts: seq<string>): string
    requires |parts| > 0
  {
    if |parts| == 1 then parts[0]
    else Join(parts[..|parts| - 1]) + [Slash] + parts[|parts| - 1]
  }

  /** Joining the pieces of a split gives back the original string. */
  lemma {:induction false} JoinSplit(s: string)
    ensures Join(Split(s)) == s
  {
    if |s| > 0 {
      var init := Split(s[..|s| - 1]);
      JoinSplit(s[..|s| - 1]);
      var c := s[|s| - 1];
      assert s == s[..|s| - 1] + [c];
      if c == Slash {
        assert Split(s) == init + [""];
        assert (init + [""])[..|init|] == init;
      } else {
        JoinExtendLast(init, c);
      }
    }
  }

  /** Appending a character to the last piece appends it to the join. */
  lemma JoinExtendLast(parts: seq<string>, c: char)
    requires |parts| > 0
    ensures Join(parts[..|parts| - 1] + [parts[|parts| - 1] + [c]]) == Join(parts) + [c]
  {
    var q := parts[..|parts| - 1] + [parts[|parts| - 1] + [c]];
    if |parts| > 1 {
      assert q[..|q| - 1] == parts[..|parts| - 1];
    }
  }

  /** Splitting a join of slash-free pieces gives back the pieces. */
  lemma {:induction false} SplitJoin(parts: seq<string>)
    requires |parts| > 0
    requires forall i :: 0 <= i < |parts| ==> Slash !in parts[i]
    ensures Split(Join(parts)) == parts
  {
    if |parts| == 1 {
      SplitSlashFree(parts[0]);
    } else {
      var init := parts[..|parts| - 1];
      var last := parts[|parts| - 1];
      SplitJoin(init);
      SplitAppend(Join(init), last);
    }
  }

  /** A slash-free string is a single piece. */
  lemma {:induction false} SplitSlashFree(s: string)
    requires Slash !in s
    ensures Split(s) == [s]
  {
    if |s| > 0 {
      var init := s[..|s| - 1];
      assert Slash !in init by {
        forall i | 0 <= i < |init| ensures init[i] != Slash {
          assert init[i] == s[i];
        }
      }
      SplitSlashFree(init);
      assert s[..|s| - 1] + [s[|s| - 1]] == s;
    }
  }

  /** One step of `Split`: a trailing character either starts a new piece
      or extends the last one. */
  lemma SplitSnoc(s: string, c: char)
    ensures c == Slash ==> Split(s + [c]) == Split(s) + [""]
    ensures c != Slash ==>
              Split(s + [c]) == Split(s)[..|Split(s)| - 1] + [Split(s)[|Split(s)| - 1] + [c]]
  {
    assert (s + [c])[..|s|] == s;
  }

  /** Appending a separator and a slash-free piece appends that piece. */
  lemma {:induction false} SplitAppend(a: string, b: string)
    requires Slash !in b
    ensures Split(a + [Slash] + b) == Split(a) + [b]
    decreases |b|
  {
    var x := a + [Slash];
    if |b| == 0 {
      assert x + b == x;
      SplitSnoc(a, Slash);
    } else {
      var b' := b[..|b| - 1];
      var c := b[|b| - 1];
      SlashFreePrefix(b);
      SplitAppend(a, b');
      assert x + b == (x + b') + [c] by {
        assert b == b' + [c];
      }
      SplitSnoc(x + b', c);
      SnocLast(Split(a), b', c);
      assert b' + [c] == b;
    }
  }

  lemma SlashFreePrefix(b: string)
    requires |b| > 0 && Slash !in b
    ensures Slash !in b[..|b| - 1] && b[|b| - 1] != Slash
  {
    var b' := b[..|b| - 1];
    forall i | 0 <= i < |b'| ensures b'[i] != Slash {
      assert b'[i] == b[i];
    }
  }

  lemma SnocLast(ps: seq<string>, p: string, c: char)
    ensures var q := ps + [p]; q[..|q| - 1] + [q[|q| - 1] + [c]] == ps + [p + [c]]
  {
    var q := ps + [p];
    assert q[..|q| - 1] == ps;
  }

  /** ASCII lower-casing, which is all `toLocaleLowerCase` does to HTTP
      method names. */
  function ToLowerAscii(s: string): (r: string)
    ensures |r| == |s|
    ensures forall i :: 0 <= i < |s| ==>
      r[i] == (if 'A' <= s[i] <= 'Z' then (s[i] as int + 32) as char else s[i])
  {
    if |s| == 0 then ""
    else
      var c := s[0];
      [if 'A' <= c <= 'Z' then (c as int + 32) as char else c] + ToLowerAscii(s[1..])
  }

  /** Joining three pieces puts a '/' between neighbours. */
  lemma JoinThree(a: string, b: string, c: string)
    ensures Join([a, b, c]) == a + "/" + b + "/" + c
  {
    assert [a, b, c][..2] == [a, b];
    assert [a, b][..1] == [a];
    assert Join([a]) == a;
    assert Join([a, b]) == a + [Slash] + b;
    assert Join([a, b, c]) == a + [Slash] + b + [Slash] + c;
    assert [Slash] == "/";
  }

  lemma SplitThree(a: string, b: string, c: string)
    requires Slash !in a && Slash !in b && Slash !in c
    ensures Split(a + "/" + b + "/" + c) == [a, b, c]
  {
    JoinThree(a, b, c);
    SplitJoin([a, b, c]);
  }
}
